=== FILE: README.md ===
# Cloudflare DNS updater — a Dafny model of its core

`CloudflareUpdate.py` walks the zones of the first page the provider lists (up to 500),
or only those named by `TARGET_DOMAIN`. For each zone it fetches the first page of
records of each of nineteen DNS types and brings each record up to date:

- an A record is set to `NEW_IP`;
- in any other record, every occurrence of `OLD_IP` in its content is replaced by
  `NEW_IP`.

A record that needs a change gets a full-record update request (PUT) or, in dry-run
mode, only a preview; a record that needs none, or lacks its id, name or content, is
skipped and gets neither. Every record visited adds one row to a change ledger (`CHANGES`) and moves the
`total`/`updated`/`skipped` counters printed at the end. Besides that pass the script:

- masks identifiers, names and secrets before displaying them (`censor_value`,
  `censor_env`);
- can replay a backup file (`restore_records`), stripping the fields the provider
  manages and choosing between overwrite and create.

This project models those parts as pure Dafny functions and proves properties about
them:

| file | module | contents |
|---|---|---|
| `wrappers.dfy` | `Wrappers` | `Option` |
| `strings.dfy` | `Strings` | Python's `in`, `str.replace`, `str.split` and `str.join` on strings, with the split/join round trips |
| `json.dfy` | `Json` | decoded JSON values and Python truthiness |
| `records.dfy` | `Records` | zones, DNS records, the run configuration, ledger rows, the list of record types |
| `client.dfy` | `Client` | the zone filter, the per-type record fetch with the network as a parameter, the update request body |
| `settings.dfy` | `Settings` | the `OLD_IP` start-up settles on, and the configuration the pass runs with, as written and as intended |
| `reconcile.dfy` | `Reconcile` | the decision rule, one record step, the whole pass as a function, the loop as a method proved equal to it, and the counter and idempotence lemmas |
| `censor.dfy` | `Censor` | the masks of `censor_value` and `censor_env` |
| `restore.dfy` | `Restore` | the restore payload and the PUT/POST choice |

Network answers are inputs:

- a record fetch is a function `(zoneId, type) -> Option<records>`; `None` stands for a
  request that raised, which the program logs and passes over;
- the provider's verdict on the `k`-th update request of a run is a function
  `nat -> bool`; an update call that raises instead of answering is not modelled (see
  "Left out").

## Model

| member | source | states |
|---|---|---|
| Reconcile.Decide | CloudflareUpdate.py:459-484 | a record is classed malformed exactly when its id, name or content is missing or empty; only a well-formed record is ever rewritten |
| Reconcile.ARecordPinned | CloudflareUpdate.py:476-480 | an A record needs an update exactly when its content differs from `NEW_IP`; its new content is then `NEW_IP`; `OLD_IP` has no influence on it |
| Reconcile.OtherRecordRewritten | CloudflareUpdate.py:481-483 | a non-A record needs an update exactly when `OLD_IP` is non-empty and occurs in its content; the new content is the content split at `OLD_IP` and re-joined with `NEW_IP`; otherwise it is left unchanged |
| Reconcile.MalformedRecordSkipped | CloudflareUpdate.py:459-472 | a record with a missing or empty id, name or content is counted and skipped, with its content as both old and new value in its ledger row; no request is sent for it; this holds for every type and every configuration |
| Reconcile.Step | CloudflareUpdate.py:455-542 | one record adds exactly one ledger row, describing that record (its name, id, type and old content, the decided new content, and a status matching the decision and the dry-run flag); a request is sent exactly for a rewrite outside dry-run; the row says `updated` exactly when the provider accepted that request |
| Reconcile.StepConsistent | CloudflareUpdate.py:455-542 | processing a record keeps the counters in agreement with the ledger: `skipped` and `updated` count the skipped and updated rows, every request yields an updated or failed row, `updated` counts accepted requests |
| Reconcile.ProcessRecords | CloudflareUpdate.py:455-542 | the records of a zone, in fetch order, append one describing row each; earlier rows are untouched; a dry run sends nothing; consistency of counters and ledger is kept |
| Reconcile.RunZones | CloudflareUpdate.py:440-542 | the zones in order: one describing row per fetched record of every zone, with the same guarantees as for one zone |
| Reconcile.Run | CloudflareUpdate.py:440-542 | a whole pass over the filtered zones: its ledger describes every visited record in visiting order, its counters agree with the ledger, and a dry run sends no request |
| Reconcile.ConsistentTotals | CloudflareUpdate.py:545 | with counters consistent with the ledger, the printed `total` equals updated + skipped + previewed + failed |
| Reconcile.RunTotals | CloudflareUpdate.py:545 | after a pass, `total` = updated + skipped + previewed + failed; in a dry run `updated` is 0 and every record is skipped or previewed |
| Reconcile.ARecordSettles | CloudflareUpdate.py:476-499 | an A record that holds the content decided for it needs no further update |
| Reconcile.SecondPassSkipsARecords | CloudflareUpdate.py:455-499 | once every decision of a pass is applied, a second pass skips every A record |
| Reconcile.OtherRecordCanMatchAgain | CloudflareUpdate.py:481-483 | the pass is not idempotent for other records: with OLD_IP `10.0.0.1` and NEW_IP `10.0.0.10` a rewritten TXT record matches again and would become `10.0.0.100` |
| Reconcile.PromptedOldIpIgnored | CloudflareUpdate.py:438 | with the program as written, an `OLD_IP` typed at the prompt while the variable is unset in the environment is not applied: a non-A record containing it is left unchanged, whereas the intended configuration rewrites every occurrence of it to `NEW_IP` |
| Reconcile.SameIpRewritesToItself | CloudflareUpdate.py:481-483 | with `OLD_IP` equal to `NEW_IP`, a non-A record containing it is still rewritten, to its own content, and outside a dry run an update request with that unchanged content is sent |
| Reconcile.FetchZone | CloudflareUpdate.py:446-453 | the per-type fetch loop gathers, in type order, exactly the records of the fetches that succeeded |
| Reconcile.ProcessZone | CloudflareUpdate.py:455-542 | the record loop of one zone, statement by statement, computes exactly `ProcessRecords` over the zone's records in fetch order |
| Reconcile.VisitRecord | CloudflareUpdate.py:455-542 | the statement-by-statement body of the record loop computes exactly one `Step` |
| Reconcile.Reconcile | CloudflareUpdate.py:440-545 | for whatever configuration it is given, the nested loops of `main` compute exactly `Run` with it, so the printed counters satisfy total = updated + skipped + previewed + failed, and a dry run updates nothing and sends nothing; `main` as written gives it the configuration of line 438 (`Settings.RunConfigAsWritten`) |
| Client.FilterZones | CloudflareUpdate.py:250-251 | with no `TARGET_DOMAIN` every zone is kept; otherwise a zone is kept exactly when its name equals the target; no zone is invented or duplicated |
| Client.KeepNamed | CloudflareUpdate.py:251 | the comprehension keeps each zone named `name` as often as it is listed, in listing order, and no other zone |
| Client.KeepNamedAppend | CloudflareUpdate.py:251 | the filter distributes over concatenation: the zones kept from a listing are those kept from each part, in listing order |
| Client.FetchAllMembers | CloudflareUpdate.py:446-450 | a record is gathered for a zone exactly when a successful fetch of one of the types returned it |
| Client.UpdateBody | CloudflareUpdate.py:263-275 | the PUT body holds type, name, the new content and the TTL (default 3600); it holds `proxied` (default false) exactly for A, AAAA and CNAME records |
| Client.UpdateBodyRoundTrip | CloudflareUpdate.py:263-275 | reading the PUT body back gives the record with its new content, its TTL made explicit (3600 by default), and `proxied` made explicit (false by default) for A, AAAA and CNAME records and dropped for the other types |
| Settings.StartupOldIp | CloudflareUpdate.py:140-155 | in an interactive start `OLD_IP` is the answer typed at the prompt, and absent exactly when nothing was typed; otherwise it is the environment variable |
| Settings.ConfigsAgree | CloudflareUpdate.py:438 | the configuration the pass runs with as written equals the one start-up settled on exactly when start-up did not prompt or its `OLD_IP` equals the environment's |
| Settings.ConfigsAgreeWithoutPrompt | CloudflareUpdate.py:151-155 | when start-up did not prompt, the as-written and the intended configuration coincide |
| Settings.ConfigsDifferAfterPrompt | CloudflareUpdate.py:145 | an address typed at the prompt with the environment variable unset reaches the intended configuration but not the one line 438 builds, and that is their only difference |
| Strings.ReplaceAll | CloudflareUpdate.py:483 | replacing a pattern that does not occur leaves the string unchanged |
| Strings.ReplaceAllIsSplitJoin | CloudflareUpdate.py:483 | replacing every occurrence, left to right and without overlaps, equals splitting at the pattern and joining with the replacement |
| Strings.SplitJoin | CloudflareUpdate.py:188-196 | joining the pieces of a split with the same separator gives back the string |
| Strings.JoinSplit | CloudflareUpdate.py:188-196 | splitting a join of separator-free pieces at a one-character separator gives back the pieces |
| Strings.SplitPieces | CloudflareUpdate.py:188 | the first piece is a prefix of the string; no piece contains the separator; there is one piece exactly when the separator does not occur |
| Strings.LastPiece | CloudflareUpdate.py:212-214 | `s.split(c)[-1]` is the part after the last `c`: it ends the string, holds no `c`, follows a `c` whenever `c` occurs, and is the whole string when `c` does not occur |
| Strings.SplitLast | CloudflareUpdate.py:212-214 | the last piece of a split is the part after the last separator: a suffix free of the separator, preceded by it whenever it occurs |
| Censor.CensorValue | CloudflareUpdate.py:179-198 | with censoring off, or for an empty value, the value is shown as is; otherwise ids get the id mask, names the name mask, and anything else becomes `***` |
| Censor.MaskId | CloudflareUpdate.py:184 | a value longer than 8 characters shows its first 4 and last 4 characters around `...`; a shorter one becomes `****` |
| Censor.MaskIdHidesMiddle | CloudflareUpdate.py:184 | two ids longer than 8 characters that share their first 4 and last 4 characters get the same mask |
| Censor.MaskWord | CloudflareUpdate.py:197 | a value longer than 4 characters shows its first 2 and last 2 characters around `***`; a shorter one becomes `***` |
| Censor.MaskLabel | CloudflareUpdate.py:192-195 | a label of at most 2 characters becomes as many asterisks; a longer one keeps its first 2 characters followed by `***` |
| Censor.MaskLabels | CloudflareUpdate.py:191-195 | every label is masked independently, in order |
| Censor.MaskAllButLast | CloudflareUpdate.py:188-196 | as many labels come back; the top-level label is kept and every other label is replaced by its mask |
| Censor.MaskNameLabels | CloudflareUpdate.py:186-196 | a masked dotted name splits at `.` into as many labels as the name; the last label is kept; every other label is its mask |
| Censor.CensorExamples | CloudflareUpdate.py:179-198 | worked examples: `1234567890` becomes `1234...7890`, `ab` becomes `****`, `example` becomes `ex***le`, and censoring off shows the value |
| Censor.MaskEmail | CloudflareUpdate.py:212 | a value without `@` becomes `***` |
| Censor.MaskEmailShape | CloudflareUpdate.py:211-212 | with an `@`, the mask is the first character, then `***@***`, then a tail of at most 3 characters that ends the value and holds no `@`; a shorter tail is everything after the last `@` |
| Censor.MaskAddress | CloudflareUpdate.py:214 | a value without `.` becomes `***` |
| Censor.MaskAddressShape | CloudflareUpdate.py:213-214 | with a `.`, the mask is the first at most 3 characters, then `.*.*.`, then exactly the part after the last `.` |
| Censor.CensorEnv | CloudflareUpdate.py:200-221 | the same variables come back; a variable is masked exactly when it is a censored one and its value is non-empty; every other entry is passed through unchanged |
| Censor.CensorKeyMasks | CloudflareUpdate.py:202-216 | the token and the auth key get the id mask, the e-mail the e-mail mask, both addresses the address mask, the domain the short mask; none falls through to `***` |
| Censor.TokenMaskedAsId | CloudflareUpdate.py:209-210 | `censor_env` masks the API token exactly as `censor_value` masks an id |
| Restore.Payload | CloudflareUpdate.py:313 | the body keeps exactly the saved fields other than `id`, `zone_id`, `zone_name`, `created_on` and `modified_on`, with their saved values |
| Restore.PayloadIdempotent | CloudflareUpdate.py:313 | stripping the managed fields twice is the same as once |
| Restore.RestoreRecord | CloudflareUpdate.py:313-322 | a saved record is overwritten (PUT to its id) exactly when its `id` is truthy, otherwise created (POST); the body is always the stripped record |
| Restore.RestoreSendsNoManagedField | CloudflareUpdate.py:313-322 | no restore request carries a provider-managed field |
| Restore.RestoreZone | CloudflareUpdate.py:312-322 | one request per saved record of the zone, in saved order |
| Restore.RestoreAll | CloudflareUpdate.py:308-326 | one request per saved record of the whole backup, whatever the provider answered before |
| Restore.RestoreAllAppend | CloudflareUpdate.py:308-322 | the restore distributes over concatenation of backups, so zones are restored in file order, each zone's records in saved order |
| Restore.RestoreAllMembers | CloudflareUpdate.py:308-322 | a request is part of the restore exactly when it restores some saved record of some saved zone |
| Restore.UpdateBodyHasNoManagedField | CloudflareUpdate.py:266-275 | an update body holds none of the fields a restore strips, so stripping leaves it as it is |

## Left out

- HTTP requests, the JSON decoding of responses and the reading and writing of the
  backup file are not modelled. Their results are inputs: the fetch oracle, the
  answer oracle, the listed zones and the parsed backup.
- `get_records` URL building, `check_for_update`, the argument parser, the HTML report,
  colour output, the banner, and the JavaScript wrappers (`cli.js`,
  `install-python.js`, `test.js`) are not modelled. They do not affect what is updated.
- `backup_records` is not modelled: it is only an HTTP fetch plus a file write.
- `init_env` and `prompt_for_env` are modelled only in their choice of `OLD_IP`
  (`Settings.StartupOldIp`). The other settings they produce are taken as given in
  `EnvSettings`.
- `NEW_IP` is modelled as always present. Outside the prompt it is non-empty, because
  line 140 sends a start-up without `NEW_IP` to the prompt. A prompt answered with
  nothing leaves it `None`, which is not modelled.
- Paging is not modelled. `get_zones` (line 246) and `get_records` (line 256) each read
  one page of at most 500 entries; the listed zones and each fetch result stand for
  that first page, and zones or records beyond it are never visited.
- Debug output is not modelled. This includes line 458, which indexes `id`, `type`,
  `name` and `content` directly and so raises for a record lacking one of them, but
  only when `DEBUG` is on.
- A record is assumed to carry a `type`. A well-formed record without one ends the
  program at line 476. A malformed one is skipped with type `None` in its ledger row
  (line 467); the model cannot represent that row.
- Reconcile.Run: an update call that raises instead of answering is not modelled. A
  `requests.put` failing with an exception (line 276), a connection error say, is not
  caught around line 517, so the program ends there with no further ledger rows, no
  summary line (545) and no report. The model assumes every update call answers.
- Reconcile.Reconcile: the same assumption as for `Reconcile.Run`.
- Client.UpdateBody: a record field that is present but JSON `null` is treated like an
  absent one. In the source, `ttl: null` is sent as `null` rather than 3600, and
  `proxied: null` drops the `proxied` key for A/AAAA/CNAME records.
- Restore.RestoreAll: the provider's answers are not modelled, because a failure is
  only logged and the loop goes on. A backup missing `zone_id` or `records`, which
  aborts the restore with an exception, is not modelled either.
- Non-integer JSON numbers are not modelled.
- Censor.CensorValue works on strings. A `None` value, which the source returns
  unchanged, behaves like the empty string here.

## Findings

| source | as written | input that shows it | evidently intended | confidence | as-written member | corrected member |
|---|---|---|---|---|---|---|
| CloudflareUpdate.py:438 | `main` reads `OLD_IP` from the process environment again, instead of using the value `init_env` stored, so an `OLD_IP` typed at the prompt is dropped | interactive start with `OLD_IP` unset in the environment, `1.2.3.4` typed at the prompt, `NEW_IP` `5.6.7.8`: the TXT record `ip4:1.2.3.4` is skipped | the pass uses the `OLD_IP` start-up settled on, and rewrites the record to `ip4:5.6.7.8` | medium (not executed) | Settings.RunConfigAsWritten, Reconcile.PromptedOldIpIgnored | Settings.RunConfig |

`Reconcile.Reconcile` takes the configuration as a parameter, so it models both the
program as written and the corrected one; the rest of the model states its
properties for any configuration or for the corrected `Settings.RunConfig`.

=== FILE: censor.dfy ===
/** Masking of identifiers, domain names and secrets before they are shown on screen.
    The masks are for display only; nothing compares or stores a masked value. */
module Censor {
  import opened Wrappers
  import opened Strings
  import opened Records

  /** What a value is, as far as masking cares. */
  datatype Kind = IdKind | NameKind | OtherKind

  /** `n` asterisks. */
  function Stars(n: nat): (r: string)
    ensures |r| == n && forall i :: 0 <= i < n ==> r[i] == '*'
  {
    if n == 0 then [] else Stars(n - 1) + "*"
  }

  /** Python's `s[:n]`: at most the first `n` characters. */
  function Prefix(s: string, n: nat): (r: string)
    ensures r <= s && |r| == (if |s| <= n then |s| else n)
  {
    if |s| <= n then s else s[..n]
  }

  /** Python's `s[-n:]` for `n > 0`: at most the last `n` characters. */
  function Suffix(s: string, n: nat): (r: string)
    ensures EndsWith(s, r) && |r| == (if |s| <= n then |s| else n)
  {
    if |s| <= n then s else s[|s| - n..]
  }

  /** The identifier mask: the first four and last four characters around `...` for a
      value longer than eight characters, four asterisks otherwise. */
  function MaskId(v: string): (r: string)
    ensures |v| > 8 ==> |r| == 11 && r[..4] == v[..4] && r[4..7] == "..." && r[7..] == v[|v| - 4..]
    ensures |v| <= 8 ==> r == "****"
  {
    if |v| > 8 then v[..4] + "..." + v[|v| - 4..] else "****"
  }

  /** The short-name mask: the first two and last two characters around `***` for a value
      longer than four characters, `***` otherwise. */
  function MaskWord(v: string): (r: string)
    ensures |v| > 4 ==> |r| == 7 && r[..2] == v[..2] && r[2..5] == "***" && r[5..] == v[|v| - 2..]
    ensures |v| <= 4 ==> r == "***"
  {
    if |v| > 4 then v[..2] + "***" + v[|v| - 2..] else "***"
  }

  /** The mask of one domain label below the top level: a label of at most two characters
      becomes as many asterisks, a longer one keeps its first two characters followed by
      `***`. */
  function MaskLabel(lab: string): (r: string)
    ensures |lab| <= 2 ==> r == Stars(|lab|)
    ensures |lab| > 2 ==> r == lab[..2] + "***"
  {
    if |lab| <= 2 then Stars(|lab|) else lab[..2] + "***"
  }

  /** The labels masked one by one. */
  function MaskLabels(labels: seq<string>): (r: seq<string>)
    ensures |r| == |labels| && forall i :: 0 <= i < |labels| ==> r[i] == MaskLabel(labels[i])
  {
    if |labels| == 0 then [] else [MaskLabel(labels[0])] + MaskLabels(labels[1..])
  }

  /** The domain-name mask: a dotted name keeps its last label and has every other label
      masked; an undotted name gets the short-name mask. */
  function MaskName(v: string): string {
    if '.' in v then Join(MaskAllButLast(Split(v, ".")), ".") else MaskWord(v)
  }

  /** The labels of a dotted name with all but the last one masked. */
  function MaskAllButLast(labels: seq<string>): (r: seq<string>)
    requires |labels| >= 1
    ensures |r| == |labels| && r[|r| - 1] == labels[|labels| - 1]
    ensures forall i :: 0 <= i < |labels| - 1 ==> r[i] == MaskLabel(labels[i])
  {
    var init := labels[..|labels| - 1];
    assert forall i :: 0 <= i < |labels| - 1 ==> init[i] == labels[i];
    MaskLabels(init) + [labels[|labels| - 1]]
  }

  /** `censor_value`: the displayed form of `v`. With censoring off, or for an empty
      value, it is `v` itself; otherwise identifiers get the identifier mask, names the
      domain-name mask, and anything else is shown as `***`. */
  function CensorValue(censor: bool, v: string, kind: Kind): (r: string)
    ensures !censor || v == [] ==> r == v
    ensures censor && v != [] && kind == IdKind ==> r == MaskId(v)
    ensures censor && v != [] && kind == NameKind ==> r == MaskName(v)
    ensures censor && v != [] && kind == OtherKind ==> r == "***"
  {
    if !censor || v == [] then v
    else match kind
      case IdKind => MaskId(v)
      case NameKind => MaskName(v)
      case OtherKind => "***"
  }

  /** A masked identifier depends only on the identifier's first and last four
      characters (and on whether it is longer than eight); the middle is never shown. */
  lemma MaskIdHidesMiddle(a: string, b: string)
    requires |a| > 8 && |b| > 8 && a[..4] == b[..4] && a[|a| - 4..] == b[|b| - 4..]
    ensures MaskId(a) == MaskId(b)
  {
  }

  /** Masking a dotted name keeps its label structure: the result splits at `.` into as
      many labels as the name, the last label is unchanged, and every other label is the
      mask of the corresponding label of the name. */
  lemma MaskNameLabels(v: string)
    requires '.' in v
    ensures var labels := Split(v, ".");
      var out := Split(MaskName(v), ".");
      && |out| == |labels|
      && out[|out| - 1] == labels[|labels| - 1]
      && forall i :: 0 <= i < |labels| - 1 ==> out[i] == MaskLabel(labels[i])
  {
    var labels := Split(v, ".");
    var masked := MaskAllButLast(labels);
    SplitCharPieces(v, '.');
    forall i | 0 <= i < |masked|
      ensures '.' !in masked[i]
    {
      if i < |labels| - 1 {
        MaskLabelDotFree(labels[i]);
      }
    }
    JoinSplit(masked, '.');
    assert Split(MaskName(v), ".") == masked;
  }

  /** Masking a label introduces no `.`. */
  lemma MaskLabelDotFree(lab: string)
    requires '.' !in lab
    ensures '.' !in MaskLabel(lab)
  {
    if |lab| > 2 {
      assert MaskLabel(lab) == lab[..2] + "***";
    }
  }

  /** The environment variables whose values are masked. */
  const CensorKeys: set<string> := {
    "CLOUDFLARE_API_TOKEN", "CLOUDFLARE_AUTH_KEY", "CLOUDFLARE_AUTH_EMAIL",
    "NEW_IP", "OLD_IP", "TARGET_DOMAIN"}

  /** The e-mail mask: the first character, `***@***`, then the last three characters
      (or fewer, when it is shorter) of the part after the last `@`; `***` when there is
      no `@`. */
  function MaskEmail(v: string): (r: string)
    requires v != []
    ensures '@' !in v ==> r == "***"
  {
    if '@' in v then [v[0]] + "***@***" + Suffix(LastPiece(v, '@'), 3) else "***"
  }

  /** `tail` is what the e-mail mask may show of `v`: at most three characters that end
      `v` and hold no `@`, and everything after the last `@` when shorter than three. */
  predicate EmailTail(v: string, tail: string) {
    && |tail| <= 3 && EndsWith(v, tail) && '@' !in tail
    && (|tail| < 3 ==> EndsWith(v, "@" + tail))
  }

  /** What a masked e-mail shows: its first character, `***@***`, then the last three
      characters (fewer when shorter) of the part after the last `@`. */
  lemma MaskEmailShape(v: string)
    requires v != [] && '@' in v
    ensures |MaskEmail(v)| >= 8 && MaskEmail(v)[..8] == [v[0]] + "***@***"
    ensures EmailTail(v, MaskEmail(v)[8..])
  {
    var last := LastPiece(v, '@');
    var tail := Suffix(last, 3);
    TailOfLastPiece(v, last);
    var head := [v[0]] + "***@***";
    assert |head| == 8;
    var r := MaskEmail(v);
    assert r == head + tail;
    assert r[..8] == head && r[8..] == tail;
  }

  /** The last three characters of the part after the last `@` form an e-mail tail. */
  lemma TailOfLastPiece(v: string, last: string)
    requires EndsWith(v, last) && '@' !in last && EndsWith(v, "@" + last)
    ensures EmailTail(v, Suffix(last, 3))
  {
    var tail := Suffix(last, 3);
    SuffixOfSuffix(v, last, tail);
    NoCharInSuffix(last, tail, '@');
    if |tail| < 3 {
      assert tail == last;
    }
    assert EmailTail(v, tail);
  }

  /** A suffix of a string free of `c` is free of `c`. */
  lemma NoCharInSuffix(s: string, t: string, c: char)
    requires c !in s && EndsWith(s, t)
    ensures c !in t
  {
    forall i | 0 <= i < |t|
      ensures t[i] != c
    {
      assert t[i] == s[|s| - |t| + i];
    }
  }

  /** The address mask: at most the first three characters, `.*.*.`, then the part after
      the last `.`; `***` when there is no `.`. */
  function MaskAddress(v: string): (r: string)
    ensures '.' !in v ==> r == "***"
  {
    if '.' in v then Prefix(v, 3) + ".*.*." + LastPiece(v, '.') else "***"
  }

  /** What a masked address shows: the value's first three characters (fewer for a
      shorter value), `.*.*.`, then exactly the part after the value's last `.`. */
  lemma MaskAddressShape(v: string)
    requires '.' in v
    ensures var r := MaskAddress(v);
      var k := |Prefix(v, 3)| + 5;
      && |r| >= k && r[..k] == Prefix(v, 3) + ".*.*."
      && EndsWith(v, "." + r[k..]) && '.' !in r[k..]
  {
    var last := LastPiece(v, '.');
    var head := Prefix(v, 3) + ".*.*.";
    var r := MaskAddress(v);
    assert r == head + last;
    assert r[..|head|] == head && r[|head|..] == last;
  }

  /** The masks `censor_env` chooses between. */
  datatype Mask = IdMask | EmailMask | AddressMask | WordMask | HideAll

  /** The mask for variable `key`, chosen by the words its name contains, tested in the
      order token-or-key, e-mail, IP, domain. */
  function MaskFor(key: string): Mask {
    if Contains(key, "TOKEN") || Contains(key, "KEY") then IdMask
    else if Contains(key, "EMAIL") then EmailMask
    else if Contains(key, "IP") then AddressMask
    else if Contains(key, "DOMAIN") then WordMask
    else HideAll
  }

  /** A non-empty value under the given mask. */
  function ApplyMask(m: Mask, v: string): string
    requires v != []
  {
    match m
    case IdMask => MaskId(v)
    case EmailMask => MaskEmail(v)
    case AddressMask => MaskAddress(v)
    case WordMask => MaskWord(v)
    case HideAll => "***"
  }

  /** The mask `censor_env` applies to a non-empty value of variable `key`. */
  function MaskSecret(key: string, v: string): string
    requires v != []
  {
    ApplyMask(MaskFor(key), v)
  }

  /** `censor_env`: the same variables, where every set, non-empty variable of
      `CensorKeys` is masked and every other entry is passed through unchanged. */
  function CensorEnv(env: map<string, Option<string>>): (r: map<string, Option<string>>)
    ensures r.Keys == env.Keys
    ensures forall k :: k in env && !(k in CensorKeys && Filled(env[k])) ==> r[k] == env[k]
    ensures forall k :: k in env && k in CensorKeys && Filled(env[k]) ==> r[k] == Some(MaskSecret(k, env[k].value))
  {
    map k | k in env :: if k in CensorKeys && Filled(env[k]) then Some(MaskSecret(k, env[k].value)) else env[k]
  }

  /** Which mask each censored variable gets: the token and the key are masked like
      identifiers, the e-mail with the e-mail mask, both addresses with the address mask
      and the domain like a short name. No censored variable falls through to `***`. */
  lemma CensorKeyMasks()
    ensures MaskFor("CLOUDFLARE_API_TOKEN") == IdMask
    ensures MaskFor("CLOUDFLARE_AUTH_KEY") == IdMask
    ensures MaskFor("CLOUDFLARE_AUTH_EMAIL") == EmailMask
    ensures MaskFor("NEW_IP") == AddressMask
    ensures MaskFor("OLD_IP") == AddressMask
    ensures MaskFor("TARGET_DOMAIN") == WordMask
  {
    TokenKeyMasks();
    EmailKeyMask();
    IpKeyMasks();
    DomainKeyMask();
  }

  /** Both keys contain `TOKEN` or `KEY`, the first test, so they get the id mask. */
  lemma TokenKeyMasks()
    ensures MaskFor("CLOUDFLARE_API_TOKEN") == IdMask
    ensures MaskFor("CLOUDFLARE_AUTH_KEY") == IdMask
  {
    assert OccursAt("CLOUDFLARE_API_TOKEN", "TOKEN", 15);
    assert OccursAt("CLOUDFLARE_AUTH_KEY", "KEY", 16);
  }

  /** `CLOUDFLARE_AUTH_EMAIL` contains neither `TOKEN` nor `KEY`, so `EMAIL` decides its mask. */
  lemma EmailKeyMask()
    ensures MaskFor("CLOUDFLARE_AUTH_EMAIL") == EmailMask
  {
    MissingChar("CLOUDFLARE_AUTH_EMAIL", "TOKEN", 'K');
    MissingChar("CLOUDFLARE_AUTH_EMAIL", "KEY", 'K');
    assert OccursAt("CLOUDFLARE_AUTH_EMAIL", "EMAIL", 16);
  }

  /** Both address keys fail the `TOKEN`, `KEY` and `EMAIL` tests, so `IP` decides their mask. */
  lemma IpKeyMasks()
    ensures MaskFor("NEW_IP") == AddressMask
    ensures MaskFor("OLD_IP") == AddressMask
  {
    MissingChar("NEW_IP", "TOKEN", 'T');
    MissingChar("NEW_IP", "KEY", 'K');
    MissingChar("NEW_IP", "EMAIL", 'M');
    assert OccursAt("NEW_IP", "IP", 4);
    MissingChar("OLD_IP", "TOKEN", 'T');
    MissingChar("OLD_IP", "KEY", 'K');
    MissingChar("OLD_IP", "EMAIL", 'M');
    assert OccursAt("OLD_IP", "IP", 4);
  }

  /** `TARGET_DOMAIN` fails every earlier test, so `DOMAIN` decides its mask. */
  lemma DomainKeyMask()
    ensures MaskFor("TARGET_DOMAIN") == WordMask
  {
    MissingChar("TARGET_DOMAIN", "TOKEN", 'K');
    MissingChar("TARGET_DOMAIN", "KEY", 'K');
    MissingChar("TARGET_DOMAIN", "EMAIL", 'L');
    MissingChar("TARGET_DOMAIN", "IP", 'P');
    assert OccursAt("TARGET_DOMAIN", "DOMAIN", 7);
  }

  /** The API token is masked by `censor_env` exactly as `censor_value` masks an
      identifier. */
  lemma TokenMaskedAsId(v: string)
    requires v != []
    ensures MaskSecret("CLOUDFLARE_API_TOKEN", v) == CensorValue(true, v, IdKind)
  {
    TokenKeyMasks();
  }

  /** Worked examples of the identifier and name masks. */
  lemma CensorExamples()
    ensures CensorValue(true, "1234567890", IdKind) == "1234...7890"
    ensures CensorValue(true, "ab", IdKind) == "****"
    ensures CensorValue(false, "1234567890", IdKind) == "1234567890"
    ensures CensorValue(true, "www", NameKind) == "***"
    ensures CensorValue(true, "example", NameKind) == "ex***le"
  {
  }
}

=== FILE: client.dfy ===
/** The provider-facing side of the pass with the network abstracted: which zones are
    kept, how the records of one zone are gathered from per-type fetches, and the
    request an update sends. */
module Client {
  import opened Wrappers
  import opened Json
  import opened Records

  /** A record fetch for one zone and one type: the records returned, or `None` when the
      request raised (the failure is logged and that type is skipped). */
  type Fetcher = (string, string) -> Option<seq<DnsRecord>>

  /** A full-record replace: PUT to `zones/{zoneId}/dns_records/{recordId}` with `body`. */
  datatype UpdateRequest = UpdateRequest(zoneId: string, recordId: string, body: Object)

  /** The zones whose name is exactly `name`, in listing order, with their multiplicity. */
  function KeepNamed(zones: seq<Zone>, name: string): (r: seq<Zone>)
    ensures forall z :: multiset(r)[z] == if z.name == name then multiset(zones)[z] else 0
    ensures forall z :: z in r ==> z.name == name
  {
    if |zones| == 0 then []
    else
      assert zones == [zones[0]] + zones[1..];
      (if zones[0].name == name then [zones[0]] else []) + KeepNamed(zones[1..], name)
  }

  /** The filter distributes over concatenation, so it keeps the zones it keeps in the
      order they were listed. */
  lemma {:induction false} KeepNamedAppend(a: seq<Zone>, b: seq<Zone>, name: string)
    ensures KeepNamed(a + b, name) == KeepNamed(a, name) + KeepNamed(b, name)
    decreases |a|
  {
    if |a| > 0 {
      assert (a + b)[0] == a[0];
      assert (a + b)[1..] == a[1..] + b;
      KeepNamedAppend(a[1..], b, name);
    } else {
      assert a + b == b;
    }
  }

  /** The zone list after the `TARGET_DOMAIN` filter: all zones when no target is set,
      otherwise exactly the zones named by it (case-sensitive string equality). */
  function FilterZones(zones: seq<Zone>, target: Option<string>): (r: seq<Zone>)
    ensures !Filled(target) ==> r == zones
    ensures Filled(target) ==> forall z :: z in r <==> z in zones && z.name == target.value
    ensures multiset(r) <= multiset(zones)
  {
    if Filled(target) then KeepNamed(zones, target.value) else zones
  }

  /** The records of one zone: the results of fetching each type of `types` in turn,
      concatenated in that order; a fetch that failed contributes nothing. */
  function FetchAll(zoneId: string, types: seq<string>, fetch: Fetcher): seq<DnsRecord> {
    if |types| == 0 then []
    else
      FetchAll(zoneId, types[..|types| - 1], fetch)
      + match fetch(zoneId, types[|types| - 1])
        case Some(recs) => recs
        case None => []
  }

  /** A record is gathered for a zone exactly when some fetch of one of the types
      succeeded and returned it. */
  lemma {:induction false} FetchAllMembers(zoneId: string, types: seq<string>, fetch: Fetcher, rec: DnsRecord)
    ensures rec in FetchAll(zoneId, types, fetch) <==>
      exists i :: 0 <= i < |types| && fetch(zoneId, types[i]).Some? && rec in fetch(zoneId, types[i]).value
    decreases |types|
  {
    if |types| > 0 {
      var init := types[..|types| - 1];
      FetchAllMembers(zoneId, init, fetch, rec);
      assert forall i :: 0 <= i < |init| ==> init[i] == types[i];
    }
  }

  /** The body of the update request for `rec` with content `newContent`: the record's
      type and name, the new content, its TTL (default 3600), and — only for A, AAAA and
      CNAME records — its `proxied` flag (default false). */
  function UpdateBody(rec: DnsRecord, newContent: string): (body: Object)
    requires rec.name.Some?
    ensures body.Keys == {"type", "name", "content", "ttl"} + (if rec.rtype in ProxiableTypes then {"proxied"} else {})
    ensures body["type"] == JStr(rec.rtype) && body["name"] == JStr(rec.name.value)
    ensures body["content"] == JStr(newContent)
    ensures body["ttl"] == JInt(if rec.ttl.Some? then rec.ttl.value else DefaultTtl)
    ensures "proxied" in body ==> body["proxied"] == JBool(rec.proxied == Some(true))
  {
    var data := map[
      "type" := JStr(rec.rtype),
      "name" := JStr(rec.name.value),
      "content" := JStr(newContent),
      "ttl" := JInt(rec.ttl.GetOr(DefaultTtl))];
    if rec.rtype in ProxiableTypes then data["proxied" := JBool(rec.proxied.GetOr(false))] else data
  }

  /** The record a body describes, read back field by field; a field the body omits, or
      holds with another JSON type, reads as absent. The id is not part of a body. */
  function BodyRecord(id: Option<string>, body: Object): DnsRecord {
    DnsRecord(
      id,
      if "name" in body && body["name"].JStr? then Some(body["name"].s) else None,
      if "type" in body && body["type"].JStr? then body["type"].s else "",
      if "content" in body && body["content"].JStr? then Some(body["content"].s) else None,
      if "ttl" in body && body["ttl"].JInt? then Some(body["ttl"].i) else None,
      if "proxied" in body && body["proxied"].JBool? then Some(body["proxied"].b) else None)
  }

  /** Reading an update body back gives the record with its new content, its TTL made
      explicit (3600 when it had none), and its `proxied` flag made explicit (false when it
      had none) for A, AAAA and CNAME records and dropped for every other type. */
  lemma UpdateBodyRoundTrip(rec: DnsRecord, newContent: string)
    requires rec.name.Some?
    ensures BodyRecord(rec.id, UpdateBody(rec, newContent)) ==
      rec.(content := Some(newContent),
           ttl := Some(rec.ttl.GetOr(DefaultTtl)),
           proxied := if rec.rtype in ProxiableTypes then Some(rec.proxied.GetOr(false)) else None)
  {
  }
}

=== FILE: json.dfy ===
/** The JSON values a decoded provider response or backup file can hold, with Python's
    truthiness (what `if value:` decides). Non-integer numbers are not modelled. */
module Json {

  datatype Json =
    | JNull
    | JBool(b: bool)
    | JInt(i: int)
    | JStr(s: string)
    | JArray(items: seq<Json>)
    | JObject(fields: map<string, Json>)

  /** Python truthiness of a decoded JSON value: `None`, `False`, `0`, `""`, `[]` and `{}`
      are false, everything else is true. */
  predicate Truthy(v: Json) {
    match v
    case JNull => false
    case JBool(b) => b
    case JInt(i) => i != 0
    case JStr(s) => s != []
    case JArray(items) => items != []
    case JObject(fields) => fields != map[]
  }

  /** A JSON object as Python holds it after `json.load`: a dictionary, the same at the
      top level as inside a `JObject`. */
  type Object = map<string, Json>

  /** Python's `d.get(key)`: `None` when the key is absent. */
  function Get(d: Object, key: string): Json {
    if key in d then d[key] else JNull
  }
}

=== FILE: reconcile.dfy ===
/** The reconciliation pass: for every record of every selected zone, decide whether
    its content must change, update it (or only preview the change), append one row to
    the change ledger and keep the run's counters. */
module Reconcile {
  import opened Wrappers
  import opened Strings
  import opened Records
  import opened Client
  import opened Settings

  /** The answer of the provider to the `k`-th update request of the run: success or
      not. An update call that raises instead of answering is not modelled. */
  type Responder = nat -> bool

  /** What the pass decides for one record. */
  datatype Decision =
    | Malformed              // id, name or content missing or empty
    | Unchanged              // nothing to change
    | Rewrite(content: string)  // the content the record must get

  /** The update rule. An A record must hold `NEW_IP`. Any other record is rewritten
      only when a non-empty `OLD_IP` occurs in its content, every occurrence being
      replaced by `NEW_IP`. */
  function Decide(cfg: Config, rec: DnsRecord): (d: Decision)
    ensures d == Malformed <==> !WellFormed(rec)
    ensures d.Rewrite? ==> WellFormed(rec)
  {
    if !WellFormed(rec) then Malformed
    else if rec.rtype == "A" then
      if rec.content.value != cfg.newIp then Rewrite(cfg.newIp) else Unchanged
    else if Filled(cfg.oldIp) && Contains(rec.content.value, cfg.oldIp.value) then
      Rewrite(ReplaceAll(rec.content.value, cfg.oldIp.value, cfg.newIp))
    else Unchanged
  }

  /** The state the pass carries from record to record: the three counters printed at
      the end, the change ledger, and the update requests sent so far. */
  datatype Tally = Tally(
    total: nat,
    updated: nat,
    skipped: nat,
    changes: seq<Change>,
    requests: seq<UpdateRequest>)

  /** The state before the first record. */
  const Start: Tally := Tally(0, 0, 0, [], [])

  /** Number of successful answers among the first `n` update requests. */
  function CountOk(respond: Responder, n: nat): nat {
    if n == 0 then 0 else CountOk(respond, n - 1) + (if respond(n - 1) then 1 else 0)
  }

  /** The counters agree with the ledger: one row per record seen, `skipped` counts the
      skipped rows, `updated` the updated rows, each sent request produced an updated or
      a failed row, and `updated` is the number of requests the provider accepted. */
  predicate Consistent(t: Tally, respond: Responder) {
    && t.total == |t.changes|
    && t.skipped == CountStatus(t.changes, Skipped)
    && t.updated == CountStatus(t.changes, Updated)
    && |t.requests| == CountStatus(t.changes, Updated) + CountStatus(t.changes, Failed)
    && t.updated == CountOk(respond, |t.requests|)
  }

  /** Ledger row `e` is the row the pass owes record `rec`: it names the record, keeps
      its old content, and records the decided content with the matching status. */
  predicate Describes(cfg: Config, rec: DnsRecord, e: Change) {
    && e.domain == rec.name && e.recordId == rec.id && e.rtype == rec.rtype
    && e.oldContent == rec.content
    && match Decide(cfg, rec)
       case Rewrite(c) =>
         && e.newContent == Some(c)
         && (if cfg.dryRun then e.status == DryRun else e.status == Updated || e.status == Failed)
       case _ => e.newContent == rec.content && e.status == Skipped
  }

  /** Processing one record of zone `zoneId`. */
  function Step(cfg: Config, zoneId: string, rec: DnsRecord, respond: Responder, t: Tally): (r: Tally)
    ensures r.total == t.total + 1
    ensures |r.changes| == |t.changes| + 1 && r.changes[..|t.changes|] == t.changes
    ensures Describes(cfg, rec, r.changes[|t.changes|])
    ensures Decide(cfg, rec).Rewrite? && !cfg.dryRun ==>
      && r.requests == t.requests + [UpdateRequest(zoneId, rec.id.value, UpdateBody(rec, Decide(cfg, rec).content))]
      && (r.changes[|t.changes|].status == Updated <==> respond(|t.requests|))
    ensures !(Decide(cfg, rec).Rewrite? && !cfg.dryRun) ==> r.requests == t.requests
  {
    var t1 := t.(total := t.total + 1);
    match Decide(cfg, rec)
    case Rewrite(c) =>
      if cfg.dryRun then
        t1.(changes := t.changes + [Change(rec.name, rec.id, rec.rtype, rec.content, Some(c), DryRun)])
      else
        var ok := respond(|t.requests|);
        t1.(updated := t.updated + (if ok then 1 else 0),
            changes := t.changes + [Change(rec.name, rec.id, rec.rtype, rec.content, Some(c), if ok then Updated else Failed)],
            requests := t.requests + [UpdateRequest(zoneId, rec.id.value, UpdateBody(rec, c))])
    case _ =>
      t1.(skipped := t.skipped + 1,
          changes := t.changes + [Change(rec.name, rec.id, rec.rtype, rec.content, rec.content, Skipped)])
  }

  /** Processing a record keeps the counters in agreement with the ledger: `skipped`
      moves only with a skipped row, `updated` only with an accepted request. */
  lemma StepConsistent(cfg: Config, zoneId: string, rec: DnsRecord, respond: Responder, t: Tally)
    ensures Consistent(t, respond) ==> Consistent(Step(cfg, zoneId, rec, respond, t), respond)
  {
    if Consistent(t, respond) {
      var r := Step(cfg, zoneId, rec, respond, t);
      var e := r.changes[|t.changes|];
      assert r.changes == t.changes + [e];
      CountStatusAppend(t.changes, e, Skipped);
      CountStatusAppend(t.changes, e, Updated);
      CountStatusAppend(t.changes, e, Failed);
      if Decide(cfg, rec).Rewrite? && !cfg.dryRun {
        assert |r.requests| == |t.requests| + 1;
        assert r.updated == CountOk(respond, |t.requests|) + (if respond(|t.requests|) then 1 else 0);
      } else {
        assert r.requests == t.requests && r.updated == t.updated;
        assert e.status != Updated && e.status != Failed;
      }
      assert r.total == |r.changes|;
      assert r.skipped == CountStatus(r.changes, Skipped);
      assert r.updated == CountStatus(r.changes, Updated);
    }
  }

  /** `added` holds, in order, the rows owed to the records `recs`. */
  predicate DescribesAll(cfg: Config, recs: seq<DnsRecord>, added: seq<Change>) {
    |recs| == |added| && forall i :: 0 <= i < |recs| ==> Describes(cfg, recs[i], added[i])
  }

  /** Rows owed to two runs of records, one after the other. */
  lemma DescribesAllAppend(cfg: Config, recs1: seq<DnsRecord>, added1: seq<Change>, recs2: seq<DnsRecord>, added2: seq<Change>)
    requires DescribesAll(cfg, recs1, added1) && DescribesAll(cfg, recs2, added2)
    ensures DescribesAll(cfg, recs1 + recs2, added1 + added2)
  {
    forall i | 0 <= i < |recs1| + |recs2|
      ensures Describes(cfg, (recs1 + recs2)[i], (added1 + added2)[i])
    {
      if i >= |recs1| {
        assert (recs1 + recs2)[i] == recs2[i - |recs1|];
        assert (added1 + added2)[i] == added2[i - |recs1|];
      }
    }
  }

  /** The rows added since `prefix` grow by the row of the record just processed. */
  lemma StepDescribes(cfg: Config, zoneId: string, init: seq<DnsRecord>, rec: DnsRecord,
                      respond: Responder, prefix: seq<Change>, before: Tally)
    requires |before.changes| >= |prefix| && before.changes[..|prefix|] == prefix
    requires DescribesAll(cfg, init, before.changes[|prefix|..])
    ensures var r := Step(cfg, zoneId, rec, respond, before);
      && |r.changes| >= |prefix| && r.changes[..|prefix|] == prefix
      && DescribesAll(cfg, init + [rec], r.changes[|prefix|..])
  {
    var r := Step(cfg, zoneId, rec, respond, before);
    var e := r.changes[|before.changes|];
    assert r.changes == before.changes + [e];
    assert r.changes[|prefix|..] == before.changes[|prefix|..] + [e];
    DescribesAllAppend(cfg, init, before.changes[|prefix|..], [rec], [e]);
  }

  /** Processing the records of one zone in order. */
  function ProcessRecords(cfg: Config, zoneId: string, recs: seq<DnsRecord>, respond: Responder, t: Tally): (r: Tally)
    ensures r.total == t.total + |recs|
    ensures |r.changes| >= |t.changes| && r.changes[..|t.changes|] == t.changes
    ensures DescribesAll(cfg, recs, r.changes[|t.changes|..])
    ensures cfg.dryRun ==> r.requests == t.requests
    ensures Consistent(t, respond) ==> Consistent(r, respond)
    decreases |recs|
  {
    if |recs| == 0 then t
    else
      var init := recs[..|recs| - 1];
      var before := ProcessRecords(cfg, zoneId, init, respond, t);
      var r := Step(cfg, zoneId, recs[|recs| - 1], respond, before);
      StepConsistent(cfg, zoneId, recs[|recs| - 1], respond, before);
      StepDescribes(cfg, zoneId, init, recs[|recs| - 1], respond, t.changes, before);
      assert init + [recs[|recs| - 1]] == recs;
      r
  }

  /** A ledger that grew from `prefix` to `mid` by the rows of `recs1`, then from `mid`
      to `full` by the rows of `recs2`, grew by the rows of `recs1 + recs2`. */
  lemma LedgerExtends(cfg: Config, recs1: seq<DnsRecord>, recs2: seq<DnsRecord>,
                      prefix: seq<Change>, mid: seq<Change>, full: seq<Change>)
    requires |mid| >= |prefix| && mid[..|prefix|] == prefix
    requires |full| >= |mid| && full[..|mid|] == mid
    requires DescribesAll(cfg, recs1, mid[|prefix|..]) && DescribesAll(cfg, recs2, full[|mid|..])
    ensures |full| >= |prefix| && full[..|prefix|] == prefix
    ensures DescribesAll(cfg, recs1 + recs2, full[|prefix|..])
  {
    assert full[|prefix|..] == mid[|prefix|..] + full[|mid|..];
    DescribesAllAppend(cfg, recs1, mid[|prefix|..], recs2, full[|mid|..]);
  }

  /** All records the pass visits for `zones`, in visiting order. */
  function RunRecords(zones: seq<Zone>, fetch: Fetcher): seq<DnsRecord> {
    if |zones| == 0 then []
    else RunRecords(zones[..|zones| - 1], fetch) + FetchAll(zones[|zones| - 1].id, RecordTypes, fetch)
  }

  /** Processing the zones in order, each with the records fetched for it. */
  function RunZones(cfg: Config, zones: seq<Zone>, fetch: Fetcher, respond: Responder, t: Tally): (r: Tally)
    ensures r.total == t.total + |RunRecords(zones, fetch)|
    ensures |r.changes| >= |t.changes| && r.changes[..|t.changes|] == t.changes
    ensures DescribesAll(cfg, RunRecords(zones, fetch), r.changes[|t.changes|..])
    ensures cfg.dryRun ==> r.requests == t.requests
    ensures Consistent(t, respond) ==> Consistent(r, respond)
    decreases |zones|
  {
    if |zones| == 0 then t
    else
      var zone := zones[|zones| - 1];
      var recs := FetchAll(zone.id, RecordTypes, fetch);
      var before := RunZones(cfg, zones[..|zones| - 1], fetch, respond, t);
      var r := ProcessRecords(cfg, zone.id, recs, respond, before);
      LedgerExtends(cfg, RunRecords(zones[..|zones| - 1], fetch), recs, t.changes, before.changes, r.changes);
      r
  }

  /** A whole run over the listed zones, after the `TARGET_DOMAIN` filter. Its ledger
      has one row per visited record, in visiting order, each row the one the record is
      owed; its counters agree with the ledger; a dry run sends no request. */
  function Run(cfg: Config, listed: seq<Zone>, fetch: Fetcher, respond: Responder): (r: Tally)
    ensures DescribesAll(cfg, RunRecords(FilterZones(listed, cfg.targetDomain), fetch), r.changes)
    ensures Consistent(r, respond)
    ensures cfg.dryRun ==> r.requests == []
  {
    StartConsistent(respond);
    RunZones(cfg, FilterZones(listed, cfg.targetDomain), fetch, respond, Start)
  }

  /** Nothing has been counted before the first record. */
  lemma StartConsistent(respond: Responder)
    ensures Consistent(Start, respond)
  {
  }

  /** The accounting identity of the printed summary: every record counted in `total`
      is updated, skipped, previewed or failed. */
  lemma ConsistentTotals(t: Tally, respond: Responder)
    requires Consistent(t, respond)
    ensures t.total == t.updated + t.skipped + CountStatus(t.changes, DryRun) + CountStatus(t.changes, Failed)
  {
    CountStatusPartition(t.changes);
  }

  /** After a run, `total == updated + skipped + #dry-run + #failed`; a dry run updates
      nothing and reports every record as skipped or previewed. */
  lemma RunTotals(cfg: Config, listed: seq<Zone>, fetch: Fetcher, respond: Responder)
    ensures var r := Run(cfg, listed, fetch, respond);
      && r.total == r.updated + r.skipped + CountStatus(r.changes, DryRun) + CountStatus(r.changes, Failed)
      && (cfg.dryRun ==> r.updated == 0 && r.total == r.skipped + CountStatus(r.changes, DryRun))
  {
    var r := Run(cfg, listed, fetch, respond);
    ConsistentTotals(r, respond);
  }

  /** An A record is pinned to `NEW_IP`: it needs an update exactly when its content
      differs from `NEW_IP`, the new content is then `NEW_IP` itself, and `OLD_IP` plays
      no part in the decision. */
  lemma ARecordPinned(cfg: Config, other: Config, rec: DnsRecord)
    requires WellFormed(rec) && rec.rtype == "A"
    requires other.newIp == cfg.newIp
    ensures Decide(cfg, rec).Rewrite? <==> rec.content.value != cfg.newIp
    ensures Decide(cfg, rec).Rewrite? ==> Decide(cfg, rec).content == cfg.newIp
    ensures Decide(other, rec) == Decide(cfg, rec)
  {
  }

  /** Any other record needs an update exactly when `OLD_IP` is set, non-empty, and
      occurs in its content; the new content is the content split at every occurrence of
      `OLD_IP` and joined again with `NEW_IP`, and a record that needs no update keeps
      its content. */
  lemma OtherRecordRewritten(cfg: Config, rec: DnsRecord)
    requires WellFormed(rec) && rec.rtype != "A"
    ensures Decide(cfg, rec).Rewrite? <==> Filled(cfg.oldIp) && Contains(rec.content.value, cfg.oldIp.value)
    ensures Decide(cfg, rec).Rewrite? ==>
      Decide(cfg, rec).content == Join(Split(rec.content.value, cfg.oldIp.value), cfg.newIp)
    ensures !Decide(cfg, rec).Rewrite? ==> Decide(cfg, rec) == Unchanged
  {
    if Decide(cfg, rec).Rewrite? {
      ReplaceAllIsSplitJoin(rec.content.value, cfg.oldIp.value, cfg.newIp);
    }
  }

  /** A record whose id, name or content is missing or empty is skipped with its content
      as both old and new content, whatever its type and whatever the configuration, and
      no request is sent for it. */
  lemma MalformedRecordSkipped(cfg: Config, zoneId: string, rec: DnsRecord, respond: Responder, t: Tally)
    requires !WellFormed(rec)
    ensures var r := Step(cfg, zoneId, rec, respond, t);
      && r.changes == t.changes + [Change(rec.name, rec.id, rec.rtype, rec.content, rec.content, Skipped)]
      && r.requests == t.requests
      && r.skipped == t.skipped + 1 && r.updated == t.updated && r.total == t.total + 1
  {
  }

  /** Once an A record holds the content decided for it, the next pass leaves it alone. */
  lemma ARecordSettles(cfg: Config, rec: DnsRecord, e: Change)
    requires rec.rtype == "A" && Describes(cfg, rec, e)
    ensures !Decide(cfg, rec.(content := e.newContent)).Rewrite?
  {
  }

  /** The provider's records once every decided content has been written back. */
  function Settled(recs: seq<DnsRecord>, added: seq<Change>): (r: seq<DnsRecord>)
    requires |recs| == |added|
    ensures |r| == |recs|
    ensures forall i :: 0 <= i < |recs| ==> r[i] == recs[i].(content := added[i].newContent)
  {
    seq(|recs|, i requires 0 <= i < |recs| => recs[i].(content := added[i].newContent))
  }

  /** Idempotence for A records: if the pass's decisions for a zone have all been applied,
      a second pass over the zone skips every A record (it sends them no request and
      previews nothing for them). */
  lemma SecondPassSkipsARecords(cfg: Config, zoneId: string, recs: seq<DnsRecord>,
                                respond: Responder, t: Tally, respond2: Responder, t2: Tally)
    ensures var first := ProcessRecords(cfg, zoneId, recs, respond, t);
      var again := Settled(recs, first.changes[|t.changes|..]);
      var second := ProcessRecords(cfg, zoneId, again, respond2, t2);
      forall i :: 0 <= i < |recs| && recs[i].rtype == "A" ==> second.changes[|t2.changes|..][i].status == Skipped
  {
    var first := ProcessRecords(cfg, zoneId, recs, respond, t);
    var added := first.changes[|t.changes|..];
    var again := Settled(recs, added);
    var second := ProcessRecords(cfg, zoneId, again, respond2, t2);
    forall i | 0 <= i < |recs| && recs[i].rtype == "A"
      ensures second.changes[|t2.changes|..][i].status == Skipped
    {
      ARecordSettles(cfg, recs[i], added[i]);
      assert Describes(cfg, again[i], second.changes[|t2.changes|..][i]);
    }
  }

  /** Idempotence does not hold for other records: when `NEW_IP` contains `OLD_IP`, the
      rewritten content contains `OLD_IP` again and the next pass rewrites it once more. */
  lemma OtherRecordCanMatchAgain()
    ensures var cfg := Config("10.0.0.10", Some("10.0.0.1"), None, false);
      var rec := DnsRecord(Some("rec-1"), Some("www.example.com"), "TXT", Some("10.0.0.1"), None, None);
      && Decide(cfg, rec) == Rewrite("10.0.0.10")
      && Decide(cfg, rec.(content := Some("10.0.0.10"))) == Rewrite("10.0.0.100")
  {
    var pat := "10.0.0.1";
    assert OccursAt(pat, pat, 0);
    assert "10.0.0.10"[..|pat|] == pat;
    assert OccursAt("10.0.0.10", pat, 0);
    assert ReplaceAll("10.0.0.10"[|pat|..], pat, "10.0.0.10") == "0";
  }

  /** As written, an `OLD_IP` typed in at the prompt never reaches the pass: with the
      variable unset in the environment, a non-A record whose content holds the typed
      address is left unchanged, whereas the configuration start-up settled on rewrites
      every occurrence of it. */
  lemma PromptedOldIpIgnored(s: EnvSettings, rec: DnsRecord)
    requires s.interactive && s.typedOldIp != [] && s.envOldIp == None
    requires WellFormed(rec) && rec.rtype != "A" && Contains(rec.content.value, s.typedOldIp)
    ensures Decide(RunConfigAsWritten(s), rec) == Unchanged
    ensures Decide(RunConfig(s), rec).Rewrite?
    ensures Decide(RunConfig(s), rec).content == Join(Split(rec.content.value, s.typedOldIp), s.newIp)
  {
    OtherRecordRewritten(RunConfig(s), rec);
  }

  /** When `OLD_IP` equals `NEW_IP`, a non-A record holding it is still counted as a
      rewrite: its new content is its old content, and outside a dry run an update
      request carrying that unchanged content is sent all the same. */
  lemma SameIpRewritesToItself(cfg: Config, zoneId: string, rec: DnsRecord, respond: Responder, t: Tally)
    requires cfg.oldIp == Some(cfg.newIp) && cfg.newIp != []
    requires WellFormed(rec) && rec.rtype != "A" && Contains(rec.content.value, cfg.newIp)
    ensures Decide(cfg, rec) == Rewrite(rec.content.value)
    ensures !cfg.dryRun ==>
      Step(cfg, zoneId, rec, respond, t).requests
        == t.requests + [UpdateRequest(zoneId, rec.id.value, UpdateBody(rec, rec.content.value))]
  {
    ReplaceAllSelf(rec.content.value, cfg.newIp);
  }

  /** One more record processed. */
  lemma ProcessRecordsExtend(cfg: Config, zoneId: string, recs: seq<DnsRecord>, i: nat, respond: Responder, t: Tally)
    requires i < |recs|
    ensures ProcessRecords(cfg, zoneId, recs[..i + 1], respond, t)
         == Step(cfg, zoneId, recs[i], respond, ProcessRecords(cfg, zoneId, recs[..i], respond, t))
  {
    assert recs[..i + 1][..i] == recs[..i];
  }

  /** One more zone processed. */
  lemma RunZonesExtend(cfg: Config, zones: seq<Zone>, i: nat, fetch: Fetcher, respond: Responder, t: Tally)
    requires i < |zones|
    ensures RunZones(cfg, zones[..i + 1], fetch, respond, t)
         == ProcessRecords(cfg, zones[i].id, FetchAll(zones[i].id, RecordTypes, fetch), respond,
                           RunZones(cfg, zones[..i], fetch, respond, t))
  {
    assert zones[..i + 1][..i] == zones[..i];
  }

  /** The per-type fetch loop for one zone: the records of every type, in fetch order,
      a failed fetch being passed over. */
  method FetchZone(zoneId: string, fetch: Fetcher) returns (allRecords: seq<DnsRecord>)
    ensures allRecords == FetchAll(zoneId, RecordTypes, fetch)
  {
    allRecords := [];
    var ti := 0;
    while ti < |RecordTypes|
      invariant 0 <= ti <= |RecordTypes|
      invariant allRecords == FetchAll(zoneId, RecordTypes[..ti], fetch)
    {
      match fetch(zoneId, RecordTypes[ti]) {
        case Some(recs) => allRecords := allRecords + recs;
        case None =>
      }
      assert RecordTypes[..ti + 1][..ti] == RecordTypes[..ti];
      ti := ti + 1;
    }
    assert RecordTypes[..|RecordTypes|] == RecordTypes;
  }

  /** The body of the record loop, written as it runs: bump `total`, check the record,
      decide, then skip, preview or update, appending one ledger row. */
  method VisitRecord(cfg: Config, zoneId: string, rec: DnsRecord, respond: Responder, t: Tally) returns (r: Tally)
    ensures r == Step(cfg, zoneId, rec, respond, t)
  {
    var total, updated, skipped, changes, requests := t.total, t.updated, t.skipped, t.changes, t.requests;
    total := total + 1;
    if !WellFormed(rec) {
      skipped := skipped + 1;
      changes := changes + [Change(rec.name, rec.id, rec.rtype, rec.content, rec.content, Skipped)];
    } else {
      var shouldUpdate := false;
      var newContent := rec.content.value;
      if rec.rtype == "A" {
        if rec.content.value != cfg.newIp {
          shouldUpdate := true;
          newContent := cfg.newIp;
        }
      } else if Filled(cfg.oldIp) && Contains(rec.content.value, cfg.oldIp.value) {
        shouldUpdate := true;
        newContent := ReplaceAll(rec.content.value, cfg.oldIp.value, cfg.newIp);
      }
      if !shouldUpdate {
        skipped := skipped + 1;
        changes := changes + [Change(rec.name, rec.id, rec.rtype, rec.content, rec.content, Skipped)];
      } else if cfg.dryRun {
        changes := changes + [Change(rec.name, rec.id, rec.rtype, rec.content, Some(newContent), DryRun)];
      } else {
        var ok := respond(|requests|);
        requests := requests + [UpdateRequest(zoneId, rec.id.value, UpdateBody(rec, newContent))];
        if ok {
          updated := updated + 1;
          changes := changes + [Change(rec.name, rec.id, rec.rtype, rec.content, Some(newContent), Updated)];
        } else {
          changes := changes + [Change(rec.name, rec.id, rec.rtype, rec.content, Some(newContent), Failed)];
        }
      }
    }
    r := Tally(total, updated, skipped, changes, requests);
  }

  /** The record loop of one zone, written as it runs: its records in fetch order, each
      visited once, with the counters and the ledger carried along. */
  method ProcessZone(cfg: Config, zoneId: string, recs: seq<DnsRecord>, respond: Responder, t: Tally)
    returns (r: Tally)
    ensures r == ProcessRecords(cfg, zoneId, recs, respond, t)
  {
    r := t;
    var ri := 0;
    while ri < |recs|
      invariant 0 <= ri <= |recs|
      invariant r == ProcessRecords(cfg, zoneId, recs[..ri], respond, t)
    {
      ProcessRecordsExtend(cfg, zoneId, recs, ri, respond, t);
      r := VisitRecord(cfg, zoneId, recs[ri], respond, r);
      ri := ri + 1;
    }
    assert recs[..|recs|] == recs;
  }

  /** The record loop of the program, written as it runs: one zone after another, the
      per-type fetches of a zone, then its records, with the counters and the ledger
      carried along. The configuration is a parameter: the program as written runs it
      with `RunConfigAsWritten(s)`, the line that re-reads `OLD_IP`, and the corrected
      program with `RunConfig(s)`. Either way it computes exactly `Run`, so its counters
      satisfy the same accounting identity. */
  method Reconcile(cfg: Config, listed: seq<Zone>, fetch: Fetcher, respond: Responder)
    returns (total: nat, updated: nat, skipped: nat, changes: seq<Change>, requests: seq<UpdateRequest>)
    ensures Tally(total, updated, skipped, changes, requests) == Run(cfg, listed, fetch, respond)
    ensures total == updated + skipped + CountStatus(changes, DryRun) + CountStatus(changes, Failed)
    ensures cfg.dryRun ==> updated == 0 && requests == []
  {
    var zones := FilterZones(listed, cfg.targetDomain);
    var t := Start;
    var zi := 0;
    while zi < |zones|
      invariant 0 <= zi <= |zones|
      invariant t == RunZones(cfg, zones[..zi], fetch, respond, Start)
    {
      var zoneId := zones[zi].id;
      var allRecords := FetchZone(zoneId, fetch);
      t := ProcessZone(cfg, zoneId, allRecords, respond, t);
      RunZonesExtend(cfg, zones, zi, fetch, respond, Start);
      zi := zi + 1;
    }
    assert zones[..|zones|] == zones;
    assert t == Run(cfg, listed, fetch, respond);
    ConsistentTotals(t, respond);
    total, updated, skipped, changes, requests := t.total, t.updated, t.skipped, t.changes, t.requests;
  }
}

=== FILE: records.dfy ===
/** The entities the reconciliation pass works on: zones, DNS records, the run
    configuration and the change ledger. */
module Records {
  import opened Wrappers

  /** A zone as listed by the provider (only `id` and `name` are used). */
  datatype Zone = Zone(id: string, name: string)

  /** A DNS record as fetched from the provider. `id`, `name` and `content` may be
      missing or null in a malformed response (`None`); `ttl` and `proxied` may be
      absent, in which case the update payload supplies a default. */
  datatype DnsRecord = DnsRecord(
    id: Option<string>,
    name: Option<string>,
    rtype: string,
    content: Option<string>,
    ttl: Option<int>,
    proxied: Option<bool>)

  /** The settings one run works with: the address records must point at (`NEW_IP`),
      the address to rewrite inside other records (`OLD_IP`), the one zone to restrict
      the run to (`TARGET_DOMAIN`) and whether to only preview (`DRY_RUN`). */
  datatype Config = Config(
    newIp: string,
    oldIp: Option<string>,
    targetDomain: Option<string>,
    dryRun: bool)

  /** The outcome recorded for one record. */
  datatype Status = Skipped | DryRun | Updated | Failed

  /** One row of the change ledger (`CHANGES`): the record's name, id, type, content
      before and after, and what happened to it. */
  datatype Change = Change(
    domain: Option<string>,
    recordId: Option<string>,
    rtype: string,
    oldContent: Option<string>,
    newContent: Option<string>,
    status: Status)

  /** Python truthiness of an optional string: present and non-empty. */
  predicate Filled(v: Option<string>) {
    v.Some? && v.value != []
  }

  /** A record the pass can classify: its id, name and content are all non-empty. */
  predicate WellFormed(rec: DnsRecord) {
    Filled(rec.id) && Filled(rec.name) && Filled(rec.content)
  }

  /** The record types fetched for every zone, in fetch order. */
  const RecordTypes: seq<string> := [
    "A", "AAAA", "CNAME", "TXT", "SRV", "MX", "NS", "PTR", "CAA", "CERT",
    "DNSKEY", "DS", "LOC", "NAPTR", "SMIMEA", "SSHFP", "SVCB", "TLSA", "URI"]

  /** The types whose update payload carries the `proxied` flag. */
  const ProxiableTypes: set<string> := {"A", "AAAA", "CNAME"}

  /** The TTL sent when a record does not carry one. */
  const DefaultTtl: int := 3600

  /** Number of ledger rows with status `s`. */
  function CountStatus(changes: seq<Change>, s: Status): nat {
    if |changes| == 0 then 0
    else CountStatus(changes[..|changes| - 1], s) + (if changes[|changes| - 1].status == s then 1 else 0)
  }

  /** Every row has exactly one of the four statuses, so the four counts add up to the
      length of the ledger. */
  lemma {:induction false} CountStatusPartition(changes: seq<Change>)
    ensures |changes| == CountStatus(changes, Skipped) + CountStatus(changes, DryRun)
                         + CountStatus(changes, Updated) + CountStatus(changes, Failed)
  {
    if |changes| > 0 {
      CountStatusPartition(changes[..|changes| - 1]);
    }
  }

  /** Counting over a ledger that grew by one row. */
  lemma CountStatusAppend(changes: seq<Change>, e: Change, s: Status)
    ensures CountStatus(changes + [e], s) == CountStatus(changes, s) + (if e.status == s then 1 else 0)
  {
    assert (changes + [e])[..|changes|] == changes;
  }
}

=== FILE: restore.dfy ===
/** Replaying a backup file: every saved record is sent back to the provider, either as an
    overwrite of the record with the saved id or as a new record. */
module Restore {
  import opened Json
  import opened Records
  import opened Client

  /** Fields the provider manages itself; they are never sent back. */
  const ManagedFields: set<string> := {"id", "zone_id", "zone_name", "created_on", "modified_on"}

  /** The saved record without the provider-managed fields: every other field, with its
      saved value. */
  function Payload(rec: Object): (body: Object)
    ensures body.Keys == rec.Keys - ManagedFields
    ensures forall k :: k in body ==> body[k] == rec[k]
  {
    map k | k in rec && k !in ManagedFields :: rec[k]
  }

  /** One request of a restore: an overwrite of record `recordId` or the creation of a new
      record, in zone `zoneId`, with body `body`. */
  datatype RestoreRequest =
    | Put(zoneId: string, recordId: Json, body: Object)
    | Post(zoneId: string, body: Object)

  /** The saved zone: its id and its records, in the order they were saved. */
  datatype ZoneBackup = ZoneBackup(zoneId: string, records: seq<Object>)

  /** The request that restores `rec` in zone `zoneId`: an overwrite exactly when the saved
      `id` is truthy (present, non-null, non-empty), a creation otherwise; either way the
      body is the record without its managed fields. */
  function RestoreRecord(zoneId: string, rec: Object): (req: RestoreRequest)
    ensures req.Put? <==> Truthy(Get(rec, "id"))
    ensures req.Put? ==> req.recordId == rec["id"]
    ensures req.zoneId == zoneId && req.body == Payload(rec)
  {
    var recId := Get(rec, "id");
    if Truthy(recId) then Put(zoneId, recId, Payload(rec)) else Post(zoneId, Payload(rec))
  }

  /** The requests restoring one zone: one per saved record, in saved order. */
  function RestoreZone(z: ZoneBackup): (reqs: seq<RestoreRequest>)
    ensures |reqs| == |z.records|
    ensures forall i :: 0 <= i < |reqs| ==> reqs[i] == RestoreRecord(z.zoneId, z.records[i])
  {
    seq(|z.records|, i requires 0 <= i < |z.records| => RestoreRecord(z.zoneId, z.records[i]))
  }

  /** The number of records saved in the backup. */
  function RecordCount(backup: seq<(string, ZoneBackup)>): nat {
    if backup == [] then 0 else RecordCount(backup[..|backup| - 1]) + |backup[|backup| - 1].1.records|
  }

  /** The whole restore: the zones in file order, each zone's records in saved order. A
      failed request is only reported, so every saved record gets its request whatever the
      provider answered before. */
  function RestoreAll(backup: seq<(string, ZoneBackup)>): (reqs: seq<RestoreRequest>)
    ensures |reqs| == RecordCount(backup)
  {
    if backup == [] then []
    else RestoreAll(backup[..|backup| - 1]) + RestoreZone(backup[|backup| - 1].1)
  }

  /** The restore of a non-empty backup: the restore of all zones but the last, then
      the requests of the last zone. */
  lemma RestoreAllLast(backup: seq<(string, ZoneBackup)>)
    requires backup != []
    ensures RestoreAll(backup) == RestoreAll(backup[..|backup| - 1]) + RestoreZone(backup[|backup| - 1].1)
  {
  }

  /** Restoring two backups one after the other sends the requests of the first, then
      those of the second: zones are restored in file order. */
  lemma {:induction false} RestoreAllAppend(a: seq<(string, ZoneBackup)>, b: seq<(string, ZoneBackup)>)
    ensures RestoreAll(a + b) == RestoreAll(a) + RestoreAll(b)
    decreases |b|
  {
    if b == [] {
      assert a + b == a;
    } else {
      var init, last := b[..|b| - 1], b[|b| - 1];
      var ab := a + b;
      assert ab[..|ab| - 1] == a + init;
      assert ab[|ab| - 1] == last;
      RestoreAllLast(ab);
      RestoreAllLast(b);
      RestoreAllAppend(a, init);
      assert RestoreAll(ab) == RestoreAll(a) + RestoreAll(init) + RestoreZone(last.1);
    }
  }

  /** `req` restores record `j` of zone `i` of the backup. */
  predicate RestoresSaved(backup: seq<(string, ZoneBackup)>, i: int, j: int, req: RestoreRequest) {
    0 <= i < |backup| && 0 <= j < |backup[i].1.records|
    && req == RestoreRecord(backup[i].1.zoneId, backup[i].1.records[j])
  }

  /** A request is part of the restore exactly when it restores some saved record of some
      saved zone. */
  lemma RestoreAllMembers(backup: seq<(string, ZoneBackup)>, req: RestoreRequest)
    ensures req in RestoreAll(backup) <==> exists i, j :: RestoresSaved(backup, i, j, req)
  {
    if req in RestoreAll(backup) {
      RestoredIsSaved(backup, req);
    }
    if exists i, j :: RestoresSaved(backup, i, j, req) {
      var i, j :| RestoresSaved(backup, i, j, req);
      SavedIsRestored(backup, i, j);
    }
  }

  /** Every request of the restore restores a saved record. */
  lemma {:induction false} RestoredIsSaved(backup: seq<(string, ZoneBackup)>, req: RestoreRequest)
    requires req in RestoreAll(backup)
    ensures exists i, j :: RestoresSaved(backup, i, j, req)
    decreases |backup|
  {
    var n := |backup| - 1;
    var init := backup[..n];
    var z := backup[n].1;
    assert RestoreAll(backup) == RestoreAll(init) + RestoreZone(z);
    if req in RestoreAll(init) {
      RestoredIsSaved(init, req);
      var i, j :| RestoresSaved(init, i, j, req);
      assert init[i] == backup[i];
      assert RestoresSaved(backup, i, j, req);
    } else {
      var j :| 0 <= j < |z.records| && RestoreZone(z)[j] == req;
      assert RestoresSaved(backup, n, j, req);
    }
  }

  /** Every saved record has its request in the restore. */
  lemma {:induction false} SavedIsRestored(backup: seq<(string, ZoneBackup)>, i: int, j: int)
    requires 0 <= i < |backup| && 0 <= j < |backup[i].1.records|
    ensures RestoreRecord(backup[i].1.zoneId, backup[i].1.records[j]) in RestoreAll(backup)
    decreases |backup|
  {
    var n := |backup| - 1;
    var init := backup[..n];
    var z := backup[n].1;
    assert RestoreAll(backup) == RestoreAll(init) + RestoreZone(z);
    if i < n {
      assert init[i] == backup[i];
      SavedIsRestored(init, i, j);
    } else {
      assert RestoreZone(z)[j] == RestoreRecord(z.zoneId, z.records[j]);
    }
  }

  /** Stripping the managed fields twice is stripping them once. */
  lemma PayloadIdempotent(rec: Object)
    ensures Payload(Payload(rec)) == Payload(rec)
  {
  }

  /** A restore request never carries a provider-managed field. */
  lemma RestoreSendsNoManagedField(zoneId: string, rec: Object)
    ensures RestoreRecord(zoneId, rec).body.Keys !! ManagedFields
  {
  }

  /** An update body holds no provider-managed field: stripping the managed fields, as a
      restore does, leaves it as it is. */
  lemma UpdateBodyHasNoManagedField(rec: DnsRecord, newContent: string)
    requires rec.name.Some?
    ensures Payload(UpdateBody(rec, newContent)) == UpdateBody(rec, newContent)
  {
  }
}

=== FILE: settings.dfy ===
/** The settings the start-up phase leaves behind, and the configuration the
    reconciliation pass actually runs with. Reading the environment and prompting the
    user are not modelled: their outcome is the input `EnvSettings`. */
module Settings {
  import opened Wrappers
  import opened Records

  /** What start-up saw and stored: `NEW_IP`, `TARGET_DOMAIN`, `DRY_RUN`, whether the
      values were typed in at the prompt (`interactive`) instead of read from the
      environment, the `OLD_IP` variable of the process environment (`envOldIp`), and
      the answer typed at the `OLD_IP` prompt (`typedOldIp`, empty when nothing was
      typed or there was no prompt). */
  datatype EnvSettings = EnvSettings(
    newIp: string,
    envOldIp: Option<string>,
    typedOldIp: string,
    targetDomain: Option<string>,
    dryRun: bool,
    interactive: bool)

  /** The `OLD_IP` start-up stores in the global settings: the prompt's answer in an
      interactive start, where an empty answer falls back to the prompt's missing
      default, and the environment variable otherwise. */
  function StartupOldIp(s: EnvSettings): (r: Option<string>)
    ensures s.interactive ==> (r == None <==> s.typedOldIp == [])
    ensures s.interactive && s.typedOldIp != [] ==> r == Some(s.typedOldIp)
    ensures !s.interactive ==> r == s.envOldIp
  {
    if s.interactive then
      if s.typedOldIp != [] then Some(s.typedOldIp) else None
    else
      s.envOldIp
  }

  /** The configuration of the pass as written: `OLD_IP` is read from the process
      environment again instead of being taken from the start-up settings, so an
      address typed in at the prompt never reaches the pass. */
  function RunConfigAsWritten(s: EnvSettings): (cfg: Config)
    ensures cfg.oldIp == s.envOldIp
    ensures cfg.newIp == s.newIp && cfg.targetDomain == s.targetDomain && cfg.dryRun == s.dryRun
  {
    Config(s.newIp, s.envOldIp, s.targetDomain, s.dryRun)
  }

  /** The configuration of the pass as intended: every value, `OLD_IP` included, is the
      one start-up settled on, whichever way it was obtained. */
  function RunConfig(s: EnvSettings): (cfg: Config)
    ensures cfg.oldIp == StartupOldIp(s)
    ensures cfg.newIp == s.newIp && cfg.targetDomain == s.targetDomain && cfg.dryRun == s.dryRun
  {
    Config(s.newIp, StartupOldIp(s), s.targetDomain, s.dryRun)
  }

  /** The two configurations coincide exactly when start-up did not prompt, or when the
      prompt's outcome happens to equal what the environment holds. */
  lemma ConfigsAgree(s: EnvSettings)
    ensures RunConfigAsWritten(s) == RunConfig(s) <==> !s.interactive || StartupOldIp(s) == s.envOldIp
  {
  }

  /** When the settings came from the environment, start-up read `OLD_IP` from the very
      variable the pass reads again, so both configurations coincide. */
  lemma ConfigsAgreeWithoutPrompt(s: EnvSettings)
    requires !s.interactive
    ensures RunConfigAsWritten(s) == RunConfig(s)
  {
  }

  /** With a prompt, an address typed while the environment leaves `OLD_IP` unset makes
      the two configurations differ in exactly their `OLD_IP`. */
  lemma ConfigsDifferAfterPrompt(s: EnvSettings)
    requires s.interactive && s.typedOldIp != [] && s.envOldIp == None
    ensures RunConfigAsWritten(s).oldIp == None
    ensures RunConfig(s).oldIp == Some(s.typedOldIp)
    ensures RunConfigAsWritten(s) == RunConfig(s).(oldIp := None)
  {
  }
}

=== FILE: strings.dfy ===
/** Substring search, `str.replace`, `str.split` and `str.join` over `seq<char>`,
    with the same leftmost, non-overlapping scan that Python uses. */
module Strings {

  /** `pat` occurs in `s` starting at index `k`. */
  predicate OccursAt(s: string, pat: string, k: int) {
    0 <= k && k + |pat| <= |s| && s[k..k + |pat|] == pat
  }

  /** Python's `pat in s`. */
  predicate Contains(s: string, pat: string) {
    exists k | 0 <= k <= |s| - |pat| :: OccursAt(s, pat, k)
  }

  /** Looking for `pat` in `s` means looking at index 0 and then in `s[1..]`. */
  lemma ContainsStep(s: string, pat: string)
    requires pat != []
    ensures |s| < |pat| ==> !Contains(s, pat)
    ensures |s| >= |pat| ==> (Contains(s, pat) <==> s[..|pat|] == pat || Contains(s[1..], pat))
  {
    if |s| >= |pat| {
      if s[..|pat|] == pat {
        assert OccursAt(s, pat, 0);
      }
      if Contains(s[1..], pat) {
        var k :| 0 <= k <= |s[1..]| - |pat| && OccursAt(s[1..], pat, k);
        assert s[k + 1..k + 1 + |pat|] == s[1..][k..k + |pat|];
        assert OccursAt(s, pat, k + 1);
      }
      if Contains(s, pat) && s[..|pat|] != pat {
        var k :| 0 <= k <= |s| - |pat| && OccursAt(s, pat, k);
        assert k != 0;
        SliceOfTail(s, k - 1, k - 1 + |pat|);
        assert OccursAt(s[1..], pat, k - 1);
      }
    }
  }

  /** A slice of `s[1..]` is the slice of `s` one position further on. */
  lemma SliceOfTail(s: string, i: int, j: int)
    requires 0 <= i <= j <= |s| - 1
    ensures s[1..][i..j] == s[i + 1..j + 1]
  {
  }

  /** For a one-character pattern, containment is membership. */
  lemma ContainsChar(s: string, c: char)
    ensures Contains(s, [c]) <==> c in s
  {
    if c in s {
      var k :| 0 <= k < |s| && s[k] == c;
      assert s[k..k + 1] == [c];
      assert OccursAt(s, [c], k);
    }
    if Contains(s, [c]) {
      var k :| 0 <= k <= |s| - 1 && OccursAt(s, [c], k);
      assert s[k] == s[k..k + 1][0];
    }
  }

  /** Python's `s.replace(pat, rep)` for a non-empty `pat`: every occurrence met by a
      left-to-right scan is replaced, and scanning resumes after the replaced text. */
  function ReplaceAll(s: string, pat: string, rep: string): (r: string)
    requires pat != []
    ensures !Contains(s, pat) ==> r == s
    decreases |s|
  {
    ContainsStep(s, pat);
    if |s| < |pat| then s
    else if s[..|pat|] == pat then rep + ReplaceAll(s[|pat|..], pat, rep)
    else [s[0]] + ReplaceAll(s[1..], pat, rep)
  }

  /** Python's `s.split(sep)` for a non-empty `sep`: the pieces between the occurrences of
      `sep` found by a left-to-right scan. */
  function Split(s: string, sep: string): (parts: seq<string>)
    requires sep != []
    ensures |parts| >= 1
    decreases |s|
  {
    if |s| < |sep| then [s]
    else if s[..|sep|] == sep then [[]] + Split(s[|sep|..], sep)
    else
      var rest := Split(s[1..], sep);
      [[s[0]] + rest[0]] + rest[1..]
  }

  /** The pieces of a split: the first is a prefix of `s`, no piece contains `sep`, and
      there is a single piece exactly when `sep` does not occur in `s`. */
  lemma {:induction false} SplitPieces(s: string, sep: string)
    requires sep != []
    ensures Split(s, sep)[0] <= s
    ensures forall i :: 0 <= i < |Split(s, sep)| ==> !Contains(Split(s, sep)[i], sep)
    ensures |Split(s, sep)| == 1 <==> !Contains(s, sep)
    decreases |s|
  {
    ContainsStep(s, sep);
    if |s| < |sep| {
    } else if s[..|sep|] == sep {
      var rest := Split(s[|sep|..], sep);
      SplitPieces(s[|sep|..], sep);
      ContainsStep([], sep);
      assert Split(s, sep) == [[]] + rest;
    } else {
      var rest := Split(s[1..], sep);
      SplitPieces(s[1..], sep);
      FirstPieceFree(s, sep, rest[0]);
      assert Split(s, sep) == [[s[0]] + rest[0]] + rest[1..];
    }
  }

  /** Helper for `Split`: extending a sep-free prefix of `s[1..]` by `s[0]` keeps it sep-free
      when `sep` does not start `s`. */
  lemma FirstPieceFree(s: string, sep: string, p: string)
    requires sep != [] && |s| >= |sep| && s[..|sep|] != sep
    requires p <= s[1..] && !Contains(p, sep)
    ensures [s[0]] + p <= s
    ensures !Contains([s[0]] + p, sep)
  {
    var t := [s[0]] + p;
    assert t == s[..|t|];
    ContainsStep(t, sep);
    if |t| >= |sep| {
      assert t[..|sep|] == s[..|sep|];
      assert t[1..] == p;
    }
  }

  /** Python's `sep.join(parts)`. */
  function Join(parts: seq<string>, sep: string): string {
    if |parts| == 0 then []
    else if |parts| == 1 then parts[0]
    else parts[0] + sep + Join(parts[1..], sep)
  }

  /** Text placed in front of the first piece ends up in front of the joined string. */
  lemma JoinPrepend(a: string, parts: seq<string>, sep: string)
    requires |parts| >= 1
    ensures Join([a + parts[0]] + parts[1..], sep) == a + Join(parts, sep)
  {
    var q := [a + parts[0]] + parts[1..];
    assert q[1..] == parts[1..];
  }

  /** Joining the pieces of a split with the same separator restores the string. */
  lemma {:induction false} SplitJoin(s: string, sep: string)
    requires sep != []
    ensures Join(Split(s, sep), sep) == s
    decreases |s|
  {
    if |s| < |sep| {
    } else if s[..|sep|] == sep {
      SplitJoin(s[|sep|..], sep);
      SplitJoinCutStep(sep, s[|sep|..]);
      TakeDrop(s, |sep|);
    } else {
      SplitJoin(s[1..], sep);
      TakeDrop(s, 1);
      SplitJoinKeepStep(s[0], s[1..], sep);
    }
  }

  /** Splitting a string that starts with `sep` gives an empty first piece. */
  lemma SplitCut(sep: string, u: string)
    requires sep != []
    ensures Split(sep + u, sep) == [[]] + Split(u, sep)
  {
    var s := sep + u;
    assert s[..|sep|] == sep;
    assert s[|sep|..] == u;
  }

  /** One step of `SplitJoin`: the string starts with `sep`. */
  lemma SplitJoinCutStep(sep: string, u: string)
    requires sep != []
    ensures Join(Split(sep + u, sep), sep) == sep + Join(Split(u, sep), sep)
  {
    SplitCut(sep, u);
    JoinEmptyFirst(Split(u, sep), sep);
  }

  /** Joining with an empty first piece in front of at least one more. */
  lemma JoinEmptyFirst(rest: seq<string>, sep: string)
    requires |rest| >= 1
    ensures Join([[]] + rest, sep) == sep + Join(rest, sep)
  {
    var q := [[]] + rest;
    assert q[0] == [] && q[1..] == rest;
    assert [] + sep == sep;
  }

  /** A string is its first `k` characters followed by the rest. */
  lemma TakeDrop(s: string, k: nat)
    requires k <= |s|
    ensures s == s[..k] + s[k..]
  {
  }

  /** One step of `SplitJoin`: the string does not start with `sep`. */
  lemma SplitJoinKeepStep(c: char, u: string, sep: string)
    requires sep != [] && |u| + 1 >= |sep| && ([c] + u)[..|sep|] != sep
    requires Join(Split(u, sep), sep) == u
    ensures Join(Split([c] + u, sep), sep) == [c] + u
  {
    var s := [c] + u;
    assert s[0] == c && s[1..] == u;
    var rest := Split(u, sep);
    assert Split(s, sep) == [[c] + rest[0]] + rest[1..];
    JoinPrepend([c], rest, sep);
  }

  /** `str.replace` is split-then-join: `s.replace(pat, rep) == rep.join(s.split(pat))`.
      So every piece of `s` between two occurrences of `pat` survives, and every
      occurrence the scan finds is replaced by `rep`. */
  lemma {:induction false} ReplaceAllIsSplitJoin(s: string, pat: string, rep: string)
    requires pat != []
    ensures ReplaceAll(s, pat, rep) == Join(Split(s, pat), rep)
    decreases |s|
  {
    if |s| < |pat| {
    } else if s[..|pat|] == pat {
      ReplaceAllIsSplitJoin(s[|pat|..], pat, rep);
      ReplaceCutStep(s, pat, rep);
    } else {
      ReplaceAllIsSplitJoin(s[1..], pat, rep);
      ReplaceKeepStep(s, pat, rep);
    }
  }

  /** One step of `ReplaceAllIsSplitJoin`: `pat` starts `s`. */
  lemma ReplaceCutStep(s: string, pat: string, rep: string)
    requires pat != [] && |s| >= |pat| && s[..|pat|] == pat
    ensures Join(Split(s, pat), rep) == rep + Join(Split(s[|pat|..], pat), rep)
  {
    assert Split(s, pat) == [[]] + Split(s[|pat|..], pat);
    JoinEmptyFirst(Split(s[|pat|..], pat), rep);
  }

  /** One step of `ReplaceAllIsSplitJoin`: `pat` does not start `s`. */
  lemma ReplaceKeepStep(s: string, pat: string, rep: string)
    requires pat != [] && |s| >= |pat| && s[..|pat|] != pat
    requires ReplaceAll(s[1..], pat, rep) == Join(Split(s[1..], pat), rep)
    ensures ReplaceAll(s, pat, rep) == Join(Split(s, pat), rep)
  {
    var rest := Split(s[1..], pat);
    assert Split(s, pat) == [[s[0]] + rest[0]] + rest[1..];
    JoinPrepend([s[0]], rest, rep);
  }

  /** Replacing a pattern by itself changes nothing. */
  lemma ReplaceAllSelf(s: string, pat: string)
    requires pat != []
    ensures ReplaceAll(s, pat, pat) == s
  {
    ReplaceAllIsSplitJoin(s, pat, pat);
    SplitJoin(s, pat);
  }

  /** Splitting at a one-character separator that is absent from a prefix `p`
      cuts exactly after `p`. */
  lemma {:induction false} SplitAfterPiece(p: string, c: char, rest: string)
    requires c !in p
    ensures Split(p + [c] + rest, [c]) == [p] + Split(rest, [c])
    decreases |p|
  {
    var s := p + [c] + rest;
    if p == [] {
      assert s[..1] == [c];
      assert s[1..] == rest;
    } else {
      assert s[..1] == [p[0]];
      assert s[1..] == p[1..] + [c] + rest;
      SplitAfterPiece(p[1..], c, rest);
      assert [p[0]] + p[1..] == p;
    }
  }

  /** For a one-character separator, splitting a join gives back the pieces,
      provided no piece contains the separator. */
  lemma {:induction false} JoinSplit(parts: seq<string>, c: char)
    requires |parts| >= 1
    requires forall i :: 0 <= i < |parts| ==> c !in parts[i]
    ensures Split(Join(parts, [c]), [c]) == parts
    decreases |parts|
  {
    if |parts| == 1 {
      ContainsChar(parts[0], c);
      SplitPieces(parts[0], [c]);
      SplitJoin(parts[0], [c]);
    } else {
      JoinSplit(parts[1..], c);
      SplitAfterPiece(parts[0], c, Join(parts[1..], [c]));
      assert [parts[0]] + parts[1..] == parts;
    }
  }

  /** `t` is a suffix of `s`. */
  predicate EndsWith(s: string, t: string) {
    |t| <= |s| && s[|s| - |t|..] == t
  }

  /** A joined string ends with its last piece, preceded by the separator when there is
      more than one piece. */
  lemma {:induction false} JoinEndsWithLast(parts: seq<string>, sep: string)
    requires |parts| >= 2
    ensures EndsWith(Join(parts, sep), sep + parts[|parts| - 1])
    decreases |parts|
  {
    if |parts| > 2 {
      JoinEndsWithLast(parts[1..], sep);
      var j := Join(parts[1..], sep);
      var t := sep + parts[|parts| - 1];
      assert Join(parts, sep) == parts[0] + sep + j;
      assert (parts[0] + sep + j)[|parts[0] + sep + j| - |t|..] == j[|j| - |t|..];
    } else {
      assert Join(parts, sep) == parts[0] + sep + parts[1];
    }
  }

  /** The last piece of a split is the part of `s` after the last occurrence of `sep`:
      a suffix of `s` free of `sep`, preceded by `sep` whenever `sep` occurs at all. */
  lemma SplitLast(s: string, sep: string)
    requires sep != []
    ensures var last := Split(s, sep)[|Split(s, sep)| - 1];
      && EndsWith(s, last)
      && !Contains(last, sep)
      && (Contains(s, sep) ==> EndsWith(s, sep + last))
  {
    var parts := Split(s, sep);
    var last := parts[|parts| - 1];
    SplitPieces(s, sep);
    assert !Contains(last, sep);
    SplitJoin(s, sep);
    if |parts| >= 2 {
      JoinEndsWithLast(parts, sep);
      assert EndsWith(s, sep + last);
      assert (sep + last)[|sep|..] == last;
      SuffixOfSuffix(s, sep + last, last);
    } else {
      assert last == Join(parts, sep) == s;
      assert s[|s| - |s|..] == s;
      assert !Contains(s, sep);
    }
    assert EndsWith(s, last);
  }

  /** A suffix of a suffix is a suffix. */
  lemma SuffixOfSuffix(s: string, t: string, u: string)
    requires EndsWith(s, t) && EndsWith(t, u)
    ensures EndsWith(s, u)
  {
    assert s[|s| - |u|..] == s[|s| - |t|..][|t| - |u|..];
  }

  /** A pattern holding a character the string lacks does not occur in it. */
  lemma MissingChar(s: string, pat: string, c: char)
    requires c in pat && c !in s
    ensures !Contains(s, pat)
  {
    forall k | 0 <= k <= |s| - |pat|
      ensures !OccursAt(s, pat, k)
    {
      var j :| 0 <= j < |pat| && pat[j] == c;
      assert s[k + j] != pat[j];
    }
  }

  /** `SplitLast` for a one-character separator `c`: the last piece ends the string,
      holds no `c`, and follows a `c` whenever `c` occurs. */
  lemma SplitLastChar(s: string, c: char)
    ensures var last := Split(s, [c])[|Split(s, [c])| - 1];
      && EndsWith(s, last)
      && c !in last
      && (c in s ==> EndsWith(s, [c] + last))
      && (c !in s ==> last == s)
  {
    var parts := Split(s, [c]);
    var last := parts[|parts| - 1];
    SplitLast(s, [c]);
    ContainsChar(s, c);
    ContainsChar(last, c);
    if c !in s {
      SplitPieces(s, [c]);
      SplitJoin(s, [c]);
      assert |parts| == 1;
      assert last == s;
    }
  }

  /** No piece of a split at a one-character separator `c` holds `c`. */
  lemma SplitCharPieces(s: string, c: char)
    ensures forall i :: 0 <= i < |Split(s, [c])| ==> c !in Split(s, [c])[i]
  {
    var parts := Split(s, [c]);
    SplitPieces(s, [c]);
    forall i | 0 <= i < |parts|
      ensures c !in parts[i]
    {
      ContainsChar(parts[i], c);
    }
  }

  /** Python's `s.split(c)[-1]`: the part of `s` after the last `c`, all of `s` when `c`
      does not occur. */
  function LastPiece(s: string, c: char): (r: string)
    ensures EndsWith(s, r) && c !in r
    ensures c in s ==> EndsWith(s, [c] + r)
    ensures c !in s ==> r == s
  {
    SplitLastChar(s, c);
    var parts := Split(s, [c]);
    parts[|parts| - 1]
  }
}

=== FILE: wrappers.dfy ===
/** Optional values: the model's stand-in for a Python value that may be `None`
    (a dictionary key that is absent, an environment variable that is unset). */
module Wrappers {

  datatype Option<+T> = None | Some(value: T) {

    /** The value, or `default` when there is none (Python's `d.get(k, default)`). */
    function GetOr(default: T): T {
      match this
      case Some(v) => v
      case None => default
    }
  }
}
